=== FILE: README.md ===
# Shared-state core of the Google Slides team dashboard

The dashboard (`i.py`, a Streamlit script) keeps one shared state per
installation. The state holds a user table keyed by name, a registry of
presentations keyed by presentation id, and an append-only activity log.
Every browser session holds its own copy of this state. A session
reconciles its copy with the JSON file on disk, and it changes its copy
through inline UI handlers.

This project models that state and the logic over it as immutable Dafny
values and pure functions:

- `wrappers.dfy` (`Wrappers`): `Option` and `Result`.
- `strings.dfy` (`Strings`): Python's lexicographic `str` order (`StrLt`)
  and decimal rendering of counts. Dafny's built-in `<` on sequences means
  proper prefix, so it is not the order Python uses.
- `shared_state.dfy` (`SharedState`): users, slide records, activities and
  the state. It also has the `.get` defaults the source reads with (count 0,
  stamp `''`, role `member`), the first-record-by-id lookup and the registry
  invariant (unique presentation ids).
- `store.dfy` (`Store`): `initialize_shared_state`, meaning the default
  state and the defaulting of missing top-level keys.
- `merge.dfy` (`StateMerger`) and `merge_properties.dfy`
  (`MergeProperties`): `merge_shared_state` and what it promises.
- `registry.dfy` (`Registry`) and `registry_properties.dfy`
  (`RegistryProperties`): `log_activity`, `authenticate`, and the register,
  upload-or-update, delete and role-toggle handlers.
- `updates.dfy` (`Updates`): `check_for_updates`.
- `report.dfy` (`Report`): the team statistics that every report mode prints.

Some things are parameters rather than code:

- `hash_password` (SHA-256) is a parameter `hash: string -> string`.
- `datetime.now()` is a parameter `now: string`.
- The Google Slides lookup is a parameter `Option<Details>`, or a
  `Fetcher = string -> Option<Details>` keyed by presentation id. `None`
  stands for every failure, which `get_presentation_details` swallows.
- The file read is an `Option<Document>`. Each of its top-level keys is
  optional, and `None` stands for a missing, unreadable or malformed file.

Some behaviour of the code is easy to misread:

- Deleting has no `Forbidden` or `NotFound` result. Authorization comes
  only from which list shows the button: "My Uploads" shows the actor's own
  records, and the admin panel shows every record. The model states this as
  the precondition `DeleteOffered`.
- The role toggle likewise has no check of its own. Its precondition says
  the actor is an administrator and the target is another existing user.
- Upload-or-update does check authorization itself (uploader or
  administrator). It also fails on an empty id and on a failed fetch.
- When the actor is not the record's uploader, the upload handler asks
  `get_user_role`, which first merges the file into the session copy
  (i.py:159-166). The handler then edits whatever record now sits at the
  position it found, and the merge stays in effect even when the actor is
  refused. The model takes the file as a parameter `disk` and does the
  same. The role that decides is never changed by that merge, because
  users already in memory win.
- `check_for_updates` logs the record's new title, because the record is
  updated before the message is built. It attributes the entry to the
  record's uploader.

## Model

| member | source | states |
|---|---|---|
| Strings.StrLtIrreflexive | i.py:107 | No stamp is strictly later than itself, so equal stamps never replace a record |
| Strings.StrLtTransitive | i.py:107 | The string order used to compare `last_modified` is transitive |
| Strings.StrLtTotal | i.py:107 | Any two distinct stamps are ordered one way or the other |
| Strings.StrLtAsymmetric | i.py:107 | Two stamps are never each later than the other |
| Strings.ProperPrefixIsSmaller | i.py:107 | A proper prefix sorts before the longer string, as in Python |
| Strings.StrLtAtFirstDifference | i.py:107 | Strings that agree up to a position are ordered by the characters at that position |
| Strings.NatToString | i.py:271 | A count renders as a non-empty string of decimal digits with no leading zero, and the digits read back as the count |
| SharedState.RoleOf | i.py:162-166 | A user missing from the table reads as a member; a known user reads as its stored role |
| SharedState.FindFirst | i.py:103-109 | The lookup finds a record with the id exactly when the id is registered, and it lands on the first such record |
| Store.DefaultUsers | i.py:51-57 | The default user table has exactly one user, `admin`, with role admin and the hash of `admin123` |
| Store.Bootstrap | i.py:36-58 | An unreadable file yields the default state; a readable one keeps each key it has and defaults each key it lacks |
| Store.BootstrapSaved | i.py:36-66 | Saving a state and bootstrapping from the saved document gives back the same state |
| Store.BootstrapDefault | i.py:51-58 | The default state satisfies the unique-id invariant and has an administrator |
| StateMerger.MergeUsers | i.py:86-90 | Merged user names are the union of both sides; memory records are kept unchanged; disk-only users are adopted |
| StateMerger.Winner | i.py:101-109 | A record challenged by disk records keeps its id and ends as itself or one of the disk records |
| StateMerger.ReplaceIfNewerAt | i.py:99-109 | A disk record with a known id changes only the first memory record with that id, and only when its stamp is strictly later |
| StateMerger.ReplacementsAt | i.py:96-109 | After the whole disk list, each first-of-its-id record is the winner of the disk challenges; every other record is untouched |
| StateMerger.DiskOnlyProps | i.py:94-98 | The appended records are exactly the disk records with ids unknown to memory, in disk order, and keep unique ids unique |
| StateMerger.MergeSlidesFromSplit | i.py:93-109 | The scan over the disk list splits into replacements within memory positions followed by appends |
| StateMerger.MergeSlides | i.py:92-109 | Memory records keep their positions; the disk-only records follow in disk order; the length never decreases |
| StateMerger.MergeActivities | i.py:111-115 | Memory activities are a prefix of the result; every disk activity is present; nothing else is added; no duplicates are introduced |
| StateMerger.MergeActivitiesFresh | i.py:113-115 | Every appended activity is a disk activity found neither in memory nor among those appended before it, so duplicates already in memory never cause an append |
| StateMerger.MergeActivitiesOrder | i.py:112-115 | Appended activities follow the order of their first occurrences in the disk list |
| StateMerger.Merge | i.py:78-117 | An unreadable file changes nothing; users in memory are kept; memory slide ids keep their positions; the log only grows |
| MergeProperties.MergeSlidesUnique | i.py:93-98 | With unique ids on both sides, the merged ids are unique and are the union of both id sets |
| MergeProperties.MergeSlidesCoversIds | i.py:92-98 | Every id present on either side is present after the merge |
| MergeProperties.MergeSlidesOverlap | i.py:101-109 | For an id on both sides, the first memory record becomes the disk record exactly when the disk stamp is strictly later, and otherwise stays |
| MergeProperties.MergeSlidesUntouched | i.py:99-109 | Later duplicates and ids the disk lacks are never changed |
| MergeProperties.MergeSlidesAppendsDiskDuplicates | i.py:94-98 | The known-id snapshot is taken once, so two disk records with the same new id are both appended |
| MergeProperties.MergeSlidesLaterWins | i.py:101-109 | A lone memory record is replaced by a disk record with the same id and a strictly later stamp |
| MergeProperties.MergeSlidesExample | i.py:104-108 | A disk copy dated a day later replaces the memory copy, so the count becomes 7 |
| MergeProperties.MergeActivitiesNoop | i.py:113-115 | Merging activities that are already present adds nothing |
| MergeProperties.MergeIdempotent | i.py:78-117 | Merging the same document twice gives the same content as merging it once, if the disk ids are unique |
| MergeProperties.MergePreservesUniqueIds | i.py:92-109 | The unique-id invariant survives a merge with a well-formed document, and the ids become the union |
| Registry.LogActivity | i.py:168-177 | Logging appends exactly one record at the end of the log and changes nothing else |
| Registry.Authenticate | i.py:153-157 | Login succeeds exactly when the user exists and the stored hash equals the hash of the password |
| Registry.RefreshForRole | i.py:159-166 | Asking for a known user's role merges the file into the session copy first; an unknown user causes no refresh; the role read is the one held before the refresh, and memory users, slide ids and the log prefix survive |
| Registry.MayEdit | i.py:1219 | A record may be overwritten by its uploader or by a user whose stored role is admin |
| Registry.RegisterUser | i.py:797-809 | The checks run in order (existing name, mismatch, length < 6) and fail exactly on those inputs; success adds exactly one member with the hashed password, leaves other users as they were and logs REGISTER |
| Registry.ToggleRole | i.py:1416-1427 | Only the target's role flips; its password and last login stay; other users and slides are untouched; ROLE_CHANGE is logged by the actor |
| Registry.UploadOrUpdate | i.py:1207-1253 | The handler succeeds exactly when the id is non-empty, the fetch succeeded, and the id is new or the actor is its uploader or an administrator. An empty id and a failed fetch are errors that change nothing. A non-uploader who is not an administrator is refused, and the session copy is left refreshed from the file. An update edits only the title, count, stamp and description of the record at the first position with the id, after that refresh when the actor is not the uploader; that record's uploader and upload date stay. A new id appends one active record owned by the actor. UPDATE or UPLOAD is logged |
| Registry.RemoveFirst | i.py:1317-1319 | Exactly the first record with the id is dropped and the rest keep their relative order; an absent id changes nothing |
| Registry.DeletePresentation | i.py:1316-1322 | The first record with the shown id is removed, users are untouched, and one DELETE (own) or ADMIN_DELETE (admin panel) record is logged |
| Registry.RemoveFirstSplit | i.py:1317-1319 | Deleting cuts the list exactly around the first record with the id |
| RegistryProperties.RegisterThenAuthenticate | i.py:153-157 | After registering, the new user authenticates with the chosen password, and every other user's outcome is unchanged |
| RegistryProperties.RegisterDuplicateFails | i.py:797-798 | Registering an existing name always fails with the duplicate error |
| RegistryProperties.RegisterAcceptsEmptyName | i.py:797-809 | No check rejects an empty user name |
| RegistryProperties.DefaultAdminAuthenticates | i.py:51-57 | On a fresh installation, `admin` / `admin123` authenticates |
| RegistryProperties.ToggleRoleTwice | i.py:1416-1422 | Toggling the same user twice restores the user table |
| RegistryProperties.UploadKeepsUniqueIds | i.py:1214-1246 | With unique ids in memory and on disk, upload-or-update keeps ids unique, keeps every registered id and registers the id with the fetched title and count on its first record; without a readable file the id is the only one added |
| RegistryProperties.UpdateBaseProps | i.py:159-166 | The refreshed copy an update edits keeps unique ids unique and every id registered, and is the session copy itself when the file cannot be read |
| RegistryProperties.UploadAuthorization | i.py:1217-1231 | Updating an existing id succeeds exactly when the actor is its uploader or an administrator, whatever the file holds |
| RegistryProperties.RemoveFirstUnique | i.py:1317-1319 | In a registry with unique ids, deleting removes exactly that id and keeps the ids unique |
| RegistryProperties.DeleteOfferedAuthorized | i.py:1316-1322 | Some delete button is offered on a record exactly when it is registered and the actor is its uploader or an administrator |
| RegistryProperties.DeleteExample | i.py:1490-1496 | A member never gets a delete button on another user's record; an administrator gets the admin panel's button, and that removal is logged as ADMIN_DELETE |
| Updates.UpdateLog | i.py:266-271 | Every record the scan logs is a SLIDE_UPDATE stamped with the scan time |
| Updates.UpdateLogBound | i.py:259-274 | With N records of which K fail to fetch, the scan logs at most N - K records |
| Updates.UpdateLogLength | i.py:262-271 | The scan logs exactly one record per changed record, and changed plus failed records never exceed the total |
| Updates.AllFailedNoUpdates | i.py:260-274 | When every fetch fails, nothing is logged and the scan still runs to the end |
| Updates.ExpectedIsStable | i.py:263-267 | A record brought up to date keeps its id and needs no further update for the same answer from the service |
| Updates.ExpectedKeepsIdentity | i.py:265-267 | An update never changes a record's id, uploader or upload date |
| Updates.ScanSlides | i.py:259-277 | A record changes only if its fetch succeeded with a different count, and then gets the new count, title and a fresh stamp. One SLIDE_UPDATE per change is logged in order. The answer is true exactly when something changed. A rescan with the same answers finds nothing. Unique ids stay unique |
| Updates.CheckForUpdates | i.py:249-279 | Without a service nothing happens and the answer is false. Otherwise the merged state is scanned, users are kept, and the log grows by the scan's records only |
| Report.TeamStatistics | i.py:402-403 | The single pass returns the number of distinct uploaders, the number of presentations and the total slide count (missing count = 0) |
| Report.UploadersBound | i.py:402 | There are no more team members than presentations, and at least one whenever there is a presentation |
| Report.TotalSlidesConcat | i.py:403 | The total slide count is additive over concatenation |
| Report.EmptyReport | i.py:402-403 | An empty registry reports zero members and zero slides |
| Report.DeleteLowersTotal | i.py:1317-1319 | Deleting a record lowers the total by exactly its slide count |
| Report.UploadNewRaisesTotal | i.py:1234-1246 | Uploading a new presentation raises the total by its fetched count and adds the actor to the team |

## Left out

- JSON load/save and the pickled credential file (i.py:60-76, i.py:179-197) are file I/O whose errors are swallowed. A load failure is modelled as `None`, and saving is the identity on the state.
- The OAuth flow and the Google Slides, Drive and HTTP calls (i.py:199-247, i.py:297-337) are foreign services. Their outcomes are parameters.
- SHA-256 inside `hash_password` is the parameter `hash`.
- Every `datetime.now()` call within one handler is the same `now` parameter. In the source each call reads the clock anew. In the upload handler the log entry's stamp can trail the record's stamp. In `check_for_updates` each changed record is stamped separately, after its own network fetch (i.py:261, i.py:266), so stamps within one scan can differ by as long as the fetches take. The model gives every record of a scan the same stamp.
- PDF and HTML report rendering (i.py:339-739) is templated output with float page coordinates and temporary files. Only the aggregate statistics are modelled.
- Two refreshes are modelled because they change an operation's outcome: the one inside the upload handler's role lookup (`RefreshForRole`, i.py:1219 via i.py:159-166) and the one at the start of `check_for_updates` (`CheckForUpdates`, i.py:254). The other refreshes are not sequenced with the handlers: `check_admin_access` (i.py:748-760, i.py:1333), `get_user_role` while rendering (i.py:820, i.py:1337), the direct `refresh_shared_state()` calls at i.py:926, i.py:933, i.py:1062, i.py:1270, i.py:1367 and i.py:1387, and the three refresh buttons (i.py:828, i.py:1086, i.py:1447). Each of these is a `Merge` of the file between handler calls, and the handlers read roles from the state as given.
- Records missing `presentation_id` or `uploader` are not modelled: every slide record carries both fields. In the source a missing key raises `KeyError`, and where it raises depends on the key.
  - A missing `presentation_id` aborts a merge part-way (i.py:94, i.py:97, i.py:102). `refresh_shared_state` catches the error and returns false (i.py:124).
  - The merge never reads `uploader`, so a missing uploader does not affect merging.
  - A missing uploader raises uncaught in the dashboard statistics (i.py:942, i.py:1071), in the upload handler's owner test (i.py:1219) and in "My Uploads" (i.py:1272).
  - The report builders read the uploader at i.py:402, i.py:544 and i.py:607. They catch the error and return no report (i.py:520, i.py:596, i.py:737).
- Updates.ScanSlides: "one SLIDE_UPDATE per changed record" holds only for records that carry an uploader. In `check_for_updates` a record without one is rewritten first (i.py:265-268, including the answer flag). The message then raises at i.py:270, and `except: continue` (i.py:273) keeps the change but logs nothing.
- Login and logout, the manual per-record update in "My Uploads" (MANUAL_UPDATE), and the Google connect and disconnect handlers are not modelled; they are outside the core modelled here. Each appends one activity, and two of them also change the state. Login writes the user's `last_login` (i.py:781-783). The manual update overwrites `slide_count`, `last_modified` and `title` whenever the fetch succeeds, with no test that the count changed (i.py:1302-1304).
- The display-only logic is not modelled: sorting by upload date, per-uploader contribution lines, and the admin and activity counters.
- Races between sessions writing the same file are not modelled. They are concurrency, which is outside a sequential model.

=== FILE: merge.dfy ===
/** Reconciliation of a session's in-memory state with the state on disk
    (`merge_shared_state`): users by name with memory winning, slides by
    presentation id with the later stamp winning, activities by equality. */
module StateMerger {
  import opened Wrappers
  import opened Strings
  import opened SharedState
  import opened Store

  // ---------------------------------------------------------------- users

  /** Disk-only users are adopted; a user already in memory keeps its memory
      record whatever the disk says. */
  function MergeUsers(mem: map<string, User>, disk: map<string, User>): (r: map<string, User>)
    ensures r.Keys == mem.Keys + disk.Keys
    ensures forall u :: u in mem ==> r[u] == mem[u]
    ensures forall u :: u in disk && u !in mem ==> r[u] == disk[u]
  {
    disk + mem
  }

  // --------------------------------------------------------------- slides

  /** A disk record challenging a memory record: it takes over only when it
      carries the same id and a strictly later stamp (a missing stamp reads
      as the empty string). */
  function Challenge(v: Slide, d: Slide): Slide {
    if d.presentationId == v.presentationId && StrLt(StampOf(v), StampOf(d)) then d else v
  }

  /** The record left standing after every disk record, in disk order, has
      challenged `v`. */
  function Winner(v: Slide, disk: seq<Slide>): (w: Slide)
    ensures w.presentationId == v.presentationId
    ensures w == v || w in disk
    decreases |disk|
  {
    if |disk| == 0 then v else Winner(Challenge(v, disk[0]), disk[1..])
  }

  /** The branch for a disk record whose id is already known: the first
      memory record with that id is overwritten wholesale when the disk
      stamp is later. */
  function ReplaceIfNewer(cur: seq<Slide>, d: Slide): (r: seq<Slide>)
    ensures |r| == |cur|
  {
    match FindFirst(cur, d.presentationId)
    case None => cur
    case Some(j) => if StrLt(StampOf(cur[j]), StampOf(d)) then cur[j := d] else cur
  }

  /** Only the first record carrying the disk record's id can change, and
      it changes exactly as `Challenge` says; ids stay where they were. */
  lemma ReplaceIfNewerAt(cur: seq<Slide>, d: Slide)
    ensures forall i :: 0 <= i < |cur| ==> ReplaceIfNewer(cur, d)[i].presentationId == cur[i].presentationId
    ensures forall i :: 0 <= i < |cur| ==>
      ReplaceIfNewer(cur, d)[i] == if IsFirstOfId(cur, i) then Challenge(cur[i], d) else cur[i]
  {
    match FindFirst(cur, d.presentationId)
    case None =>
      AbsentId(cur, d.presentationId);
    case Some(j) =>
      assert forall i :: 0 <= i < |cur| && IsFirstOfId(cur, i) && i != j ==>
        cur[i].presentationId != d.presentationId;
  }

  /** Replacement only, over the whole disk list: the part of the merge that
      touches memory positions. */
  function Replacements(cur: seq<Slide>, disk: seq<Slide>): (r: seq<Slide>)
    ensures |r| == |cur|
    decreases |disk|
  {
    if |disk| == 0 then cur else Replacements(ReplaceIfNewer(cur, disk[0]), disk[1..])
  }

  /** After the whole disk list, each first-of-its-id record is the winner
      of the disk challenges and every other record is untouched. */
  lemma {:induction false} ReplacementsAt(cur: seq<Slide>, disk: seq<Slide>)
    ensures forall i :: 0 <= i < |cur| ==>
      Replacements(cur, disk)[i] == if IsFirstOfId(cur, i) then Winner(cur[i], disk) else cur[i]
    decreases |disk|
  {
    if |disk| > 0 {
      var next := ReplaceIfNewer(cur, disk[0]);
      ReplaceIfNewerAt(cur, disk[0]);
      ReplacementsAt(next, disk[1..]);
      assert forall i :: 0 <= i < |cur| ==> (IsFirstOfId(next, i) <==> IsFirstOfId(cur, i));
    }
  }

  /** The disk records whose id is not in `known`, in disk order. */
  function DiskOnly(known: set<string>, disk: seq<Slide>): seq<Slide>
    decreases |disk|
  {
    if |disk| == 0 then []
    else if disk[0].presentationId in known then DiskOnly(known, disk[1..])
    else [disk[0]] + DiskOnly(known, disk[1..])
  }

  /** The appended records come from the disk list, carry exactly the disk
      ids unknown to memory, and are unique when the disk ids are. */
  lemma {:induction false} DiskOnlyProps(known: set<string>, disk: seq<Slide>)
    ensures forall s :: s in DiskOnly(known, disk) ==> s in disk && s.presentationId !in known
    ensures IdSet(DiskOnly(known, disk)) == IdSet(disk) - known
    ensures UniqueIds(disk) ==> UniqueIds(DiskOnly(known, disk))
    decreases |disk|
  {
    if |disk| > 0 {
      var rest := DiskOnly(known, disk[1..]);
      DiskOnlyProps(known, disk[1..]);
      IdSetConcat([disk[0]], disk[1..]);
      assert disk == [disk[0]] + disk[1..];
      if disk[0].presentationId !in known {
        IdSetConcat([disk[0]], rest);
        UniqueHead(disk);
      }
    }
  }

  lemma AbsentId(cur: seq<Slide>, id: string)
    requires id !in IdSet(cur)
    ensures forall i :: 0 <= i < |cur| ==> cur[i].presentationId != id
  {
    forall i | 0 <= i < |cur| ensures cur[i].presentationId != id {
      IdSetMember(cur, i);
    }
  }

  /** One step of the slide merge; `known` is the id set of memory taken
      once, before the scan of the disk list starts. */
  function MergeSlideStep(cur: seq<Slide>, known: set<string>, d: Slide): seq<Slide> {
    if d.presentationId !in known then cur + [d] else ReplaceIfNewer(cur, d)
  }

  function MergeSlidesFrom(cur: seq<Slide>, known: set<string>, disk: seq<Slide>): seq<Slide>
    decreases |disk|
  {
    if |disk| == 0 then cur
    else MergeSlidesFrom(MergeSlideStep(cur, known, disk[0]), known, disk[1..])
  }

  lemma FindFirstPrefix(a: seq<Slide>, b: seq<Slide>, id: string)
    requires id in IdSet(a)
    ensures FindFirst(a + b, id) == FindFirst(a, id)
  {
    IdSetConcat(a, b);
    var j := FindFirst(a, id).value;
    var k := FindFirst(a + b, id).value;
    assert (a + b)[j] == a[j];
    assert k <= j;
    assert (a + b)[k] == a[k];
  }

  lemma StepUnknown(a: seq<Slide>, b: seq<Slide>, known: set<string>, d: Slide)
    requires IdSet(a) == known && d.presentationId !in known
    ensures MergeSlideStep(a + b, known, d) == a + (b + [d])
    ensures ReplaceIfNewer(a, d) == a
  {
    assert (a + b) + [d] == a + (b + [d]);
  }

  lemma UpdateConcat(a: seq<Slide>, b: seq<Slide>, j: int, x: Slide)
    requires 0 <= j < |a|
    ensures (a + b)[j := x] == a[j := x] + b
  {
  }

  lemma StepKnown(a: seq<Slide>, b: seq<Slide>, known: set<string>, d: Slide) returns (a1: seq<Slide>)
    requires IdSet(a) == known && d.presentationId in known
    ensures a1 == ReplaceIfNewer(a, d)
    ensures MergeSlideStep(a + b, known, d) == a1 + b
    ensures IdSet(a1) == known
  {
    FindFirstPrefix(a, b, d.presentationId);
    a1 := ReplaceIfNewer(a, d);
    var j := FindFirst(a, d.presentationId).value;
    UpdateConcat(a, b, j, d);
    ReplaceIfNewerAt(a, d);
    SameIdsSameIdSet(a, a1);
  }

  lemma ConcatShift(r: seq<Slide>, b: seq<Slide>, d: Slide, rest: seq<Slide>)
    ensures r + (b + [d]) + rest == r + b + ([d] + rest)
  {
  }

  /** The scan splits into replacements within the memory part and appends
      after everything already appended. */
  lemma {:induction false} MergeSlidesFromSplit(a: seq<Slide>, b: seq<Slide>, known: set<string>, disk: seq<Slide>)
    requires IdSet(a) == known
    requires forall s :: s in b ==> s.presentationId !in known
    ensures MergeSlidesFrom(a + b, known, disk) == Replacements(a, disk) + b + DiskOnly(known, disk)
    decreases |disk|
  {
    if |disk| > 0 {
      var d := disk[0];
      var tail := disk[1..];
      assert MergeSlidesFrom(a + b, known, disk) == MergeSlidesFrom(MergeSlideStep(a + b, known, d), known, tail);
      if d.presentationId !in known {
        StepUnknown(a, b, known, d);
        MergeSlidesFromSplit(a, b + [d], known, tail);
        assert DiskOnly(known, disk) == [d] + DiskOnly(known, tail);
        assert Replacements(a, disk) == Replacements(a, tail);
        ConcatShift(Replacements(a, tail), b, d, DiskOnly(known, tail));
      } else {
        var a1 := StepKnown(a, b, known, d);
        MergeSlidesFromSplit(a1, b, known, tail);
        assert DiskOnly(known, disk) == DiskOnly(known, tail);
        assert Replacements(a, disk) == Replacements(a1, tail);
      }
    }
  }

  /** The slide half of the merge. Memory records keep their positions (each
      first-of-its-id record ends as the winner of the disk challenges, every
      other one is untouched) and the disk records with unknown ids follow in
      disk order. */
  function MergeSlides(mem: seq<Slide>, disk: seq<Slide>): (r: seq<Slide>)
    ensures |r| == |mem| + |DiskOnly(IdSet(mem), disk)|
    ensures forall i :: 0 <= i < |mem| ==>
      r[i] == if IsFirstOfId(mem, i) then Winner(mem[i], disk) else mem[i]
    ensures r[|mem|..] == DiskOnly(IdSet(mem), disk)
  {
    MergeSlidesFromSplit(mem, [], IdSet(mem), disk);
    ReplacementsAt(mem, disk);
    assert mem + [] == mem;
    MergeSlidesFrom(mem, IdSet(mem), disk)
  }

  // ----------------------------------------------------------- activities

  predicate NoDuplicates<T(==)>(s: seq<T>) {
    forall i, j :: 0 <= i < j < |s| ==> s[i] != s[j]
  }

  /** Each disk activity is appended unless an equal one is already in the
      growing list, so repeats inside the disk list are added once. */
  function MergeActivities(cur: seq<Activity>, disk: seq<Activity>): (r: seq<Activity>)
    ensures |cur| <= |r| && r[..|cur|] == cur
    ensures forall a :: a in disk ==> a in r
    ensures forall a :: a in r ==> a in cur || a in disk
    ensures NoDuplicates(cur) ==> NoDuplicates(r)
    decreases |disk|
  {
    if |disk| == 0 then cur
    else
      var next := if disk[0] in cur then cur else cur + [disk[0]];
      var r := MergeActivities(next, disk[1..]);
      assert r[..|cur|] == r[..|next|][..|cur|];
      assert disk[0] in next;
      assert disk[0] in r by {
        var k :| 0 <= k < |next| && next[k] == disk[0];
        assert r[..|next|][k] == r[k];
      }
      assert forall a :: a in disk ==> a == disk[0] || a in disk[1..];
      r
  }

  /** The position of the first occurrence of `a` in `s`. */
  function FirstIndex<T(==)>(s: seq<T>, a: T): (k: nat)
    requires a in s
    ensures k < |s| && s[k] == a && a !in s[..k]
    decreases |s|
  {
    if s[0] == a then 0
    else
      var k := FirstIndex(s[1..], a);
      assert s[..k + 1] == [s[0]] + s[1..][..k];
      k + 1
  }

  lemma FirstIndexTail<T>(s: seq<T>, a: T)
    requires |s| > 0 && a in s[1..] && a != s[0]
    ensures a in s && FirstIndex(s, a) == FirstIndex(s[1..], a) + 1
  {
  }

  /** Every appended activity comes from the disk list and is neither in
      memory nor appended earlier. */
  lemma {:induction false} MergeActivitiesFresh(cur: seq<Activity>, disk: seq<Activity>, r: seq<Activity>)
    requires r == MergeActivities(cur, disk)
    ensures forall k :: |cur| <= k < |r| ==> r[k] in disk && r[k] !in r[..k]
    decreases |disk|
  {
    if |disk| > 0 {
      var d, tail := disk[0], disk[1..];
      var next := MergeActivitiesUnfold(cur, disk);
      MergeActivitiesFresh(next, tail, r);
      assert r[..|next|] == next;
      forall k | |cur| <= k < |r|
        ensures r[k] in disk && r[k] !in r[..k]
      {
        if k < |next| {
          assert r[k] == next[k] == d == disk[0];
          assert r[..k] == next[..k] == cur;
        } else {
          assert r[k] in tail && r[k] !in r[..k];
          var j :| 0 <= j < |tail| && tail[j] == r[k];
          assert disk[j + 1] == r[k];
        }
      }
    }
  }

  /** After the first disk activity has been dealt with, every later
      appended activity differs from it and sits one place further into the
      disk list than into its tail. */
  lemma MergeActivitiesShift(cur: seq<Activity>, disk: seq<Activity>, r: seq<Activity>, k: int)
    requires |disk| > 0 && r == MergeActivities(cur, disk)
    requires |cur| + (if disk[0] in cur then 0 else 1) <= k < |r|
    ensures r[k] in disk[1..] && r[k] in disk
    ensures FirstIndex(disk, r[k]) == FirstIndex(disk[1..], r[k]) + 1
  {
    var d, tail := disk[0], disk[1..];
    var next := MergeActivitiesUnfold(cur, disk);
    MergeActivitiesFresh(next, tail, r);
    assert r[..|next|] == next;
    var j := FirstIndex(next, d);
    assert r[..k][j] == d;
    FirstIndexTail(disk, r[k]);
  }

  lemma MergeActivitiesUnfold(cur: seq<Activity>, disk: seq<Activity>) returns (next: seq<Activity>)
    requires |disk| > 0
    ensures next == if disk[0] in cur then cur else cur + [disk[0]]
    ensures MergeActivities(cur, disk) == MergeActivities(next, disk[1..])
  {
    next := if disk[0] in cur then cur else cur + [disk[0]];
  }

  /** Any two appended activities appear in the order of their first
      occurrences on disk. With `MergeActivitiesFresh` and the clauses of
      `MergeActivities` this fixes the result: the disk activities memory
      lacks, each once, in disk order, after the memory log as it was. */
  lemma {:induction false} MergeActivitiesOrder(cur: seq<Activity>, disk: seq<Activity>, r: seq<Activity>,
                                                k1: int, k2: int)
    requires r == MergeActivities(cur, disk)
    requires |cur| <= k1 < k2 < |r|
    ensures r[k1] in disk && r[k2] in disk && FirstIndex(disk, r[k1]) < FirstIndex(disk, r[k2])
    decreases |disk|
  {
    if |disk| > 0 {
      var next := MergeActivitiesUnfold(cur, disk);
      MergeActivitiesShift(cur, disk, r, k2);
      if k1 >= |next| {
        MergeActivitiesOrder(next, disk[1..], r, k1, k2);
        MergeActivitiesShift(cur, disk, r, k1);
      } else {
        assert r[..|next|] == next;
        assert r[k1] == next[k1] == disk[0];
        assert FirstIndex(disk, r[k1]) == 0;
      }
    }
  }

  // ---------------------------------------------------------- whole state

  /** `merge_shared_state`: nothing happens when the document cannot be
      read; each top-level key present on disk is merged into its part. */
  function Merge(mem: State, disk: Option<Document>): (r: State)
    ensures disk.None? ==> r == mem
    ensures mem.users.Keys <= r.users.Keys
    ensures forall u :: u in mem.users ==> r.users[u] == mem.users[u]
    ensures |mem.slides| <= |r.slides|
    ensures forall i :: 0 <= i < |mem.slides| ==> r.slides[i].presentationId == mem.slides[i].presentationId
    ensures |mem.activities| <= |r.activities| && r.activities[..|mem.activities|] == mem.activities
  {
    match disk
    case None => mem
    case Some(doc) =>
      var users := if doc.users.Some? then MergeUsers(mem.users, doc.users.value) else mem.users;
      var slides := if doc.slides.Some? then MergeSlides(mem.slides, doc.slides.value) else mem.slides;
      var activities := if doc.activities.Some? then MergeActivities(mem.activities, doc.activities.value) else mem.activities;
      State(users, slides, activities)
  }
}

=== FILE: merge_properties.dfy ===
/** What the merge promises: key-set union for users and slides, the
    later-stamp-wins rule, an append-only activity log, and idempotence once
    no other writer changes the file. */
module MergeProperties {
  import opened Wrappers
  import opened Strings
  import opened SharedState
  import opened Store
  import opened StateMerger

  // ------------------------------------------------------------- helpers

  lemma EmptyIdSet(s: seq<Slide>)
    requires IdSet(s) == {}
    ensures s == []
  {
    if |s| > 0 {
      IdSetMember(s, 0);
    }
  }

  /** The merged list splits into the memory part, whose ids are those of
      memory position by position, and the appended disk-only part. */
  lemma MergeSlidesSplit(mem: seq<Slide>, disk: seq<Slide>) returns (p: seq<Slide>, d: seq<Slide>)
    ensures MergeSlides(mem, disk) == p + d
    ensures |p| == |mem|
    ensures forall i :: 0 <= i < |mem| ==> p[i].presentationId == mem[i].presentationId
    ensures d == DiskOnly(IdSet(mem), disk)
  {
    var r := MergeSlides(mem, disk);
    p := r[..|mem|];
    d := r[|mem|..];
    assert r == p + d;
  }

  lemma SameIdsSameUnique(a: seq<Slide>, b: seq<Slide>)
    requires |a| == |b|
    requires forall i :: 0 <= i < |a| ==> a[i].presentationId == b[i].presentationId
    requires UniqueIds(a)
    ensures UniqueIds(b)
  {
  }

  /** A record whose id no disk record carries survives every challenge. */
  lemma {:induction false} WinnerAbsent(v: Slide, disk: seq<Slide>)
    requires v.presentationId !in IdSet(disk)
    ensures Winner(v, disk) == v
    decreases |disk|
  {
    if |disk| > 0 {
      IdSetMember(disk, 0);
      IdSetConcat([disk[0]], disk[1..]);
      assert disk == [disk[0]] + disk[1..];
      WinnerAbsent(v, disk[1..]);
    }
  }

  /** With unique disk ids, exactly one disk record can challenge `v`. */
  lemma {:induction false} WinnerUnique(v: Slide, disk: seq<Slide>, k: int)
    requires UniqueIds(disk) && 0 <= k < |disk| && disk[k].presentationId == v.presentationId
    ensures Winner(v, disk) == Challenge(v, disk[k])
    decreases |disk|
  {
    if k == 0 {
      UniqueHead(disk);
      WinnerAbsent(Challenge(v, disk[0]), disk[1..]);
    } else {
      assert disk[0].presentationId != disk[k].presentationId;
      WinnerUnique(v, disk[1..], k - 1);
    }
  }

  lemma ChallengeIdempotent(v: Slide, d: Slide)
    ensures Challenge(Challenge(v, d), d) == Challenge(v, d)
  {
    StrLtIrreflexive(StampOf(d));
  }

  // ------------------------------------------------------------- slides

  /** With unique ids on both sides the merged ids are unique and are the
      union of the two id sets. */
  lemma MergeSlidesUnique(mem: seq<Slide>, disk: seq<Slide>)
    requires UniqueIds(mem) && UniqueIds(disk)
    ensures UniqueIds(MergeSlides(mem, disk))
    ensures IdSet(MergeSlides(mem, disk)) == IdSet(mem) + IdSet(disk)
  {
    var p, d := MergeSlidesSplit(mem, disk);
    DiskOnlyProps(IdSet(mem), disk);
    SameIdsSameIdSet(mem, p);
    SameIdsSameUnique(mem, p);
    UniqueConcat(p, d);
    IdSetConcat(p, d);
  }

  /** The replacement rule for an id on both sides: the first memory record
      with that id becomes the disk record exactly when the disk stamp is
      strictly later, and is otherwise left as it was. */
  lemma MergeSlidesOverlap(mem: seq<Slide>, disk: seq<Slide>, i: int, k: int)
    requires UniqueIds(disk)
    requires IsFirstOfId(mem, i)
    requires 0 <= k < |disk| && disk[k].presentationId == mem[i].presentationId
    ensures MergeSlides(mem, disk)[i] ==
      if StrLt(StampOf(mem[i]), StampOf(disk[k])) then disk[k] else mem[i]
  {
    WinnerUnique(mem[i], disk, k);
  }

  /** Every other memory record (a later duplicate of an id, or an id the
      disk does not carry) is left untouched. */
  lemma MergeSlidesUntouched(mem: seq<Slide>, disk: seq<Slide>, i: int)
    requires 0 <= i < |mem|
    requires !IsFirstOfId(mem, i) || mem[i].presentationId !in IdSet(disk)
    ensures MergeSlides(mem, disk)[i] == mem[i]
  {
    if IsFirstOfId(mem, i) {
      WinnerAbsent(mem[i], disk);
    }
  }

  /** The merged slides carry every id of either side. */
  lemma MergeSlidesCoversIds(mem: seq<Slide>, disk: seq<Slide>)
    ensures IdSet(MergeSlides(mem, disk)) == IdSet(mem) + IdSet(disk)
  {
    var p, d := MergeSlidesSplit(mem, disk);
    DiskOnlyProps(IdSet(mem), disk);
    SameIdsSameIdSet(mem, p);
    IdSetConcat(p, d);
  }

  /** A merged record that is first of its id is a fixed point of the disk
      challenges. */
  lemma MergedRecordStands(mem: seq<Slide>, disk: seq<Slide>, i: int)
    requires UniqueIds(disk)
    requires IsFirstOfId(MergeSlides(mem, disk), i)
    ensures Winner(MergeSlides(mem, disk)[i], disk) == MergeSlides(mem, disk)[i]
  {
    var p, d := MergeSlidesSplit(mem, disk);
    DiskOnlyProps(IdSet(mem), disk);
    var r := p + d;
    if r[i].presentationId !in IdSet(disk) {
      WinnerAbsent(r[i], disk);
    } else {
      var k := FindFirst(disk, r[i].presentationId).value;
      WinnerUnique(r[i], disk, k);
      if i < |mem| {
        SameIdsSameFirst(mem, p, r, i);
        WinnerUnique(mem[i], disk, k);
        ChallengeIdempotent(mem[i], disk[k]);
      } else {
        assert r[i] == d[i - |mem|];
        var k' :| 0 <= k' < |disk| && disk[k'] == r[i];
        assert k' == k;
        StrLtIrreflexive(StampOf(disk[k]));
      }
    }
  }

  lemma SameIdsSameFirst(mem: seq<Slide>, p: seq<Slide>, r: seq<Slide>, i: int)
    requires |p| == |mem| && |p| <= |r| && r[..|p|] == p
    requires forall j :: 0 <= j < |mem| ==> p[j].presentationId == mem[j].presentationId
    requires 0 <= i < |mem| && IsFirstOfId(r, i)
    ensures IsFirstOfId(mem, i)
  {
    forall j | 0 <= j < i ensures mem[j].presentationId != mem[i].presentationId {
      assert r[j] == p[j] && r[i] == p[i];
    }
  }

  /** Merging the same disk list a second time changes nothing, provided the
      disk ids are unique. */
  lemma MergeSlidesIdempotent(mem: seq<Slide>, disk: seq<Slide>)
    requires UniqueIds(disk)
    ensures MergeSlides(MergeSlides(mem, disk), disk) == MergeSlides(mem, disk)
  {
    var r := MergeSlides(mem, disk);
    var r2 := MergeSlides(r, disk);
    MergeSlidesCoversIds(mem, disk);
    DiskOnlyProps(IdSet(r), disk);
    EmptyIdSet(DiskOnly(IdSet(r), disk));
    forall i | 0 <= i < |r| ensures r2[i] == r[i] {
      if IsFirstOfId(r, i) {
        MergedRecordStands(mem, disk, i);
      }
    }
  }

  /** The disk snapshot of known ids is taken once, so two disk records with
      the same new id are both appended. */
  lemma MergeSlidesAppendsDiskDuplicates(a: Slide, b: Slide)
    requires a.presentationId == b.presentationId
    ensures MergeSlides([], [a, b]) == [a, b]
    ensures !UniqueIds(MergeSlides([], [a, b]))
  {
    assert IdSet([]) == {};
    assert DiskOnly({}, [a, b]) == [a, b] by {
      assert [a, b][1..] == [b];
      assert DiskOnly({}, [b]) == [b] by {
        assert [b][1..] == [];
      }
    }
  }

  lemma ExampleStamps()
    ensures StrLt("2024-01-01 10:00:00", "2024-01-02 09:00:00")
  {
    var a := "2024-01-01 10:00:00";
    var b := "2024-01-02 09:00:00";
    assert a[..9] == b[..9];
    StrLtAtFirstDifference(a, b, 9);
  }

  /** A single memory record challenged by a single disk record with the
      same id and a strictly later stamp is replaced by it. */
  lemma MergeSlidesLaterWins(m: Slide, d: Slide)
    requires m.presentationId == d.presentationId
    requires StrLt(StampOf(m), StampOf(d))
    ensures MergeSlides([m], [d]) == [d]
  {
    MergeSlidesOverlap([m], [d], 0, 0);
    IdSetMember([m], 0);
    var p, rest := MergeSlidesSplit([m], [d]);
    assert rest == [] by {
      assert DiskOnly(IdSet([m]), [d]) == DiskOnly(IdSet([m]), [d][1..]);
      assert [d][1..] == [];
    }
  }

  /** A memory copy of presentation "A" with 5 slides stamped
      2024-01-01 10:00:00 meets a disk copy with 7 slides stamped
      2024-01-02 09:00:00: the disk copy replaces it and the count is 7. */
  lemma MergeSlidesExample(m: Slide, d: Slide)
    requires m.presentationId == "A" && m.slideCount == Some(5) && m.lastModified == Some("2024-01-01 10:00:00")
    requires d.presentationId == "A" && d.slideCount == Some(7) && d.lastModified == Some("2024-01-02 09:00:00")
    ensures MergeSlides([m], [d])[0].slideCount == Some(7)
  {
    ExampleStamps();
    MergeSlidesLaterWins(m, d);
  }

  // --------------------------------------------------------- activities

  /** Merging a disk list whose activities are all present already is a no-op. */
  lemma {:induction false} MergeActivitiesNoop(cur: seq<Activity>, disk: seq<Activity>)
    requires forall a :: a in disk ==> a in cur
    ensures MergeActivities(cur, disk) == cur
    decreases |disk|
  {
    if |disk| > 0 {
      assert disk[0] in disk;
      assert forall a :: a in disk[1..] ==> a in disk;
      MergeActivitiesNoop(cur, disk[1..]);
    }
  }

  // --------------------------------------------------------- whole state

  /** Two merges with the same readable document give the same state as one
      (content idempotence, given unique presentation ids on disk). */
  lemma MergeIdempotent(mem: State, doc: Document)
    requires doc.slides.Some? ==> UniqueIds(doc.slides.value)
    ensures Merge(Merge(mem, Some(doc)), Some(doc)) == Merge(mem, Some(doc))
  {
    var r := Merge(mem, Some(doc));
    if doc.slides.Some? {
      MergeSlidesIdempotent(mem.slides, doc.slides.value);
    }
    if doc.activities.Some? {
      MergeActivitiesNoop(r.activities, doc.activities.value);
    }
    if doc.users.Some? {
      assert MergeUsers(r.users, doc.users.value) == r.users;
    }
  }

  /** The registry invariant survives a merge with a well-formed document,
      and the merged registry carries the ids of both sides. */
  lemma MergePreservesUniqueIds(mem: State, doc: Document)
    requires UniqueIds(mem.slides)
    requires doc.slides.Some? ==> UniqueIds(doc.slides.value)
    ensures UniqueIds(Merge(mem, Some(doc)).slides)
    ensures IdSet(Merge(mem, Some(doc)).slides) == IdSet(mem.slides) + IdSet(doc.slides.GetOr([]))
  {
    if doc.slides.Some? {
      MergeSlidesUnique(mem.slides, doc.slides.value);
    } else {
      assert IdSet([]) == {};
    }
  }
}

=== FILE: registry.dfy ===
/** The registry operations the dashboard's handlers perform on the shared
    state: the activity log, registration and password checks, upload or
    update of a presentation, deletion and the administrator's role toggle.
    Each successful operation appends exactly one activity record. */
module Registry {
  import opened Wrappers
  import opened SharedState
  import opened Store
  import opened StateMerger

  const MinPasswordLength: nat := 6

  datatype RegisterError = DuplicateUser | PasswordMismatch | WeakPassword

  datatype UploadError = MissingId | FetchFailed | NotOwner

  /** What the upload handler leaves behind: the session state, which a role
      lookup may have refreshed even when the handler reports an error, and
      the error it reports, if any. */
  datatype UploadOutcome = UploadOutcome(state: State, error: Option<UploadError>)

  // --------------------------------------------------------- activity log

  /** `log_activity`: the log only ever grows at its end. */
  function LogActivity(st: State, timestamp: string, action: Action, user: string, details: string): (r: State)
    ensures r.users == st.users && r.slides == st.slides
    ensures |r.activities| == |st.activities| + 1
    ensures r.activities[..|st.activities|] == st.activities
    ensures r.activities[|st.activities|] == Activity(timestamp, user, action, details)
  {
    st.(activities := st.activities + [Activity(timestamp, user, action, details)])
  }

  // ---------------------------------------------------------------- users

  /** `authenticate`: the user exists and its stored hash is the hash of the
      supplied password. The hash function is a parameter. */
  function Authenticate(users: map<string, User>, hash: string -> string, username: string, password: string): (ok: bool)
    ensures ok ==> username in users
    ensures ok <==> username in users && users[username].passwordHash == hash(password)
  {
    if username in users then users[username].passwordHash == hash(password) else false
  }

  /** `get_user_role`: for a user the session knows, the session copy is
      first refreshed from the file (`disk`), and the role is read from the
      refreshed copy; for an unknown user nothing is refreshed. Because the
      merge keeps every user already in memory, the role read is the one
      the session held before the refresh. */
  function RefreshForRole(st: State, disk: Option<Document>, user: string): (r: State)
    ensures user !in st.users ==> r == st
    ensures user in st.users ==> r == Merge(st, disk)
    ensures RoleOf(r.users, user) == RoleOf(st.users, user)
    ensures forall u :: u in st.users ==> u in r.users && r.users[u] == st.users[u]
    ensures |st.slides| <= |r.slides|
    ensures forall i :: 0 <= i < |st.slides| ==> r.slides[i].presentationId == st.slides[i].presentationId
    ensures |st.activities| <= |r.activities| && r.activities[..|st.activities|] == st.activities
  {
    if user in st.users then Merge(st, disk) else st
  }

  /** The registration handler. The checks run in this order: existing
      name, confirmation mismatch, short password. A new user is a member
      with the hashed password and no recorded login. */
  function RegisterUser(st: State, hash: string -> string, username: string, password: string,
                        confirm: string, now: string): (r: Result<State, RegisterError>)
    ensures username in st.users ==> r == Failure(DuplicateUser)
    ensures username !in st.users && password != confirm ==> r == Failure(PasswordMismatch)
    ensures username !in st.users && password == confirm && |password| < MinPasswordLength ==>
      r == Failure(WeakPassword)
    ensures r.Success? <==>
      username !in st.users && password == confirm && |password| >= MinPasswordLength
    ensures r.Success? ==>
      && r.value.users.Keys == st.users.Keys + {username}
      && r.value.users[username] == User(hash(password), Member, None)
      && (forall u :: u in st.users ==> r.value.users[u] == st.users[u])
      && r.value.slides == st.slides
      && r.value.activities == st.activities + [Activity(now, username, Register, "New user registered")]
  {
    if username in st.users then Failure(DuplicateUser)
    else if password != confirm then Failure(PasswordMismatch)
    else if |password| < MinPasswordLength then Failure(WeakPassword)
    else
      var added := st.(users := st.users[username := User(hash(password), Member, None)]);
      Success(LogActivity(added, now, Register, username, "New user registered"))
  }

  function RoleName(role: Role): string {
    match role
    case Member => "member"
    case Admin => "admin"
  }

  /** The administrator's role toggle. The button is shown only in the
      admin panel and only next to other users, which the precondition
      states. */
  function ToggleRole(st: State, actor: string, target: string, now: string): (r: State)
    requires IsAdmin(st.users, actor)
    requires target in st.users && target != actor
    ensures r.users.Keys == st.users.Keys
    ensures r.users[target].role != st.users[target].role
    ensures r.users[target].passwordHash == st.users[target].passwordHash
    ensures r.users[target].lastLogin == st.users[target].lastLogin
    ensures forall u :: u in st.users && u != target ==> r.users[u] == st.users[u]
    ensures r.slides == st.slides
    ensures |r.activities| == |st.activities| + 1 && r.activities[..|st.activities|] == st.activities
    ensures r.activities[|st.activities|].action == RoleChange
    ensures r.activities[|st.activities|].user == actor
  {
    var current := st.users[target].role;
    var next := if current == Admin then Member else Admin;
    var changed := st.(users := st.users[target := st.users[target].(role := next)]);
    LogActivity(changed, now, RoleChange, actor,
                "Changed " + target + " from " + RoleName(current) + " to " + RoleName(next))
  }

  // --------------------------------------------------------------- slides

  function PresentationLink(id: string): string {
    "https://docs.google.com/presentation/d/" + id + "/edit"
  }

  /** Who may overwrite an existing record: its uploader or an administrator. */
  function MayEdit(users: map<string, User>, actor: string, s: Slide): (ok: bool)
    ensures ok <==> s.uploader == actor || (actor in users && users[actor].role == Admin)
  {
    s.uploader == actor || IsAdmin(users, actor)
  }

  /** The state the update branch works on: the session copy as it is when
      the actor uploaded the record, and otherwise the copy the role lookup
      refreshed. */
  function UpdateBase(st: State, disk: Option<Document>, actor: string, s: Slide): State {
    if s.uploader == actor then st else RefreshForRole(st, disk, actor)
  }

  /** The upload form's handler. An empty id and a failed fetch are errors
      that leave the state as it was. A known id edits the first record with
      that id if the actor is its uploader or an administrator. Asking for
      the role of a non-uploader refreshes the session copy from the file
      first, so the edit is applied to the record now at that position,
      which a newer disk copy may have replaced: title, count, stamp and
      description change, and that record's uploader and upload date stay.
      The refresh persists when the actor is refused. An unknown id appends
      a new active record owned by the actor. */
  function UploadOrUpdate(st: State, disk: Option<Document>, actor: string, id: string, description: string,
                          fetched: Option<Details>, now: string): (r: UploadOutcome)
    ensures id == "" ==> r == UploadOutcome(st, Some(MissingId))
    ensures id != "" && fetched.None? ==> r == UploadOutcome(st, Some(FetchFailed))
    ensures r.error == Some(MissingId) <==> id == ""
    ensures r.error == Some(FetchFailed) <==> id != "" && fetched.None?
    ensures r.error.None? <==>
      && id != "" && fetched.Some?
      && (FindFirst(st.slides, id).None? || MayEdit(st.users, actor, st.slides[FindFirst(st.slides, id).value]))
    ensures r.error == Some(NotOwner) <==>
      && id != "" && fetched.Some? && FindFirst(st.slides, id).Some?
      && !MayEdit(st.users, actor, st.slides[FindFirst(st.slides, id).value])
    ensures r.error == Some(NotOwner) ==> r.state == RefreshForRole(st, disk, actor)
    ensures r.error.None? && id in IdSet(st.slides) ==>
      var i := FindFirst(st.slides, id).value;
      var base := UpdateBase(st, disk, actor, st.slides[i]);
      && |st.slides| <= |base.slides|
      && MayEdit(st.users, actor, st.slides[i])
      && |r.state.slides| == |base.slides|
      && r.state.users == base.users
      && r.state.activities == base.activities + [Activity(now, actor, Update, "Updated '" + fetched.value.title + "'")]
      && (forall j :: 0 <= j < |base.slides| && j != i ==> r.state.slides[j] == base.slides[j])
      && var before, after := base.slides[i], r.state.slides[i];
      && after.presentationId == id
      && after.uploader == before.uploader && after.uploadDate == before.uploadDate
      && after.presentationLink == before.presentationLink && after.status == before.status
      && after.title == fetched.value.title && after.slideCount == Some(fetched.value.slideCount)
      && after.lastModified == Some(now) && after.description == description
    ensures r.error.None? && id !in IdSet(st.slides) ==>
      && r.state.users == st.users
      && |r.state.slides| == |st.slides| + 1
      && r.state.slides[..|st.slides|] == st.slides
      && r.state.activities == st.activities + [Activity(now, actor, Upload, "Uploaded '" + fetched.value.title + "'")]
      && var s := r.state.slides[|st.slides|];
      && s.presentationId == id && s.uploader == actor && s.status == "active"
      && s.title == fetched.value.title && s.slideCount == Some(fetched.value.slideCount)
      && s.uploadDate == now && s.lastModified == Some(now) && s.description == description
  {
    if id == "" then UploadOutcome(st, Some(MissingId))
    else if fetched.None? then UploadOutcome(st, Some(FetchFailed))
    else
      var d := fetched.value;
      match FindFirst(st.slides, id)
      case Some(i) =>
        var base := UpdateBase(st, disk, actor, st.slides[i]);
        if st.slides[i].uploader == actor || IsAdmin(base.users, actor) then
          var edited := base.slides[i].(title := d.title, slideCount := Some(d.slideCount),
                                        lastModified := Some(now), description := description);
          var updated := base.(slides := base.slides[i := edited]);
          UploadOutcome(LogActivity(updated, now, Update, actor, "Updated '" + d.title + "'"), None)
        else UploadOutcome(base, Some(NotOwner))
      case None =>
        var created := Slide(id, d.title, PresentationLink(id), description, actor, now,
                             Some(d.slideCount), Some(now), "active");
        var appended := st.(slides := st.slides + [created]);
        UploadOutcome(LogActivity(appended, now, Upload, actor, "Uploaded '" + d.title + "'"), None)
  }

  /** The first record with the given id is dropped; the others keep their
      relative order. */
  function RemoveFirst(slides: seq<Slide>, id: string): (r: seq<Slide>)
    ensures FindFirst(slides, id).None? ==> r == slides
    ensures FindFirst(slides, id).Some? ==>
      var i := FindFirst(slides, id).value;
      && |r| == |slides| - 1
      && (forall j :: 0 <= j < i ==> r[j] == slides[j])
      && (forall j :: i <= j < |r| ==> r[j] == slides[j + 1])
    decreases |slides|
  {
    if |slides| == 0 then []
    else if slides[0].presentationId == id then slides[1..]
    else
      FindFirstCons(slides, id);
      [slides[0]] + RemoveFirst(slides[1..], id)
  }

  /** Deleting cuts the list around the first record with the id. */
  lemma RemoveFirstSplit(slides: seq<Slide>, id: string)
    requires FindFirst(slides, id).Some?
    ensures var i := FindFirst(slides, id).value;
      && RemoveFirst(slides, id) == slides[..i] + slides[i + 1..]
      && slides == slides[..i] + [slides[i]] + slides[i + 1..]
  {
  }

  datatype DeleteKind = OwnDelete | AdminRemove

  /** Where a delete button is rendered: on the actor's own records in "My
      Uploads", and on every record in the admin panel. `shown` is the record
      whose button was pressed. */
  predicate DeleteOffered(st: State, actor: string, shown: Slide, kind: DeleteKind) {
    && shown in st.slides
    && match kind
       case OwnDelete => shown.uploader == actor
       case AdminRemove => IsAdmin(st.users, actor)
  }

  /** The two delete handlers: pop the first record carrying the shown
      record's id and log DELETE or ADMIN_DELETE. */
  function DeletePresentation(st: State, actor: string, shown: Slide, kind: DeleteKind, now: string): (r: State)
    requires DeleteOffered(st, actor, shown, kind)
    ensures r.users == st.users
    ensures |r.slides| == |st.slides| - 1
    ensures r.slides == RemoveFirst(st.slides, shown.presentationId)
    ensures |r.activities| == |st.activities| + 1 && r.activities[..|st.activities|] == st.activities
    ensures r.activities[|st.activities|].action == (if kind == OwnDelete then Delete else AdminDelete)
    ensures r.activities[|st.activities|].user == actor
  {
    assert shown.presentationId in IdSet(st.slides);
    var removed := st.(slides := RemoveFirst(st.slides, shown.presentationId));
    match kind
    case OwnDelete => LogActivity(removed, now, Delete, actor, "Deleted '" + shown.title + "'")
    case AdminRemove => LogActivity(removed, now, AdminDelete, actor, "Admin removed '" + shown.title + "'")
  }
}

=== FILE: registry_properties.dfy ===
/** Properties relating the registry operations to each other and to the
    registry invariant (unique presentation ids). */
module RegistryProperties {
  import opened Wrappers
  import opened SharedState
  import opened Store
  import opened StateMerger
  import opened MergeProperties
  import opened Registry

  /** A freshly registered user can log in with the password just chosen,
      and nobody else's login outcome changes. */
  lemma RegisterThenAuthenticate(st: State, hash: string -> string, username: string,
                                 password: string, now: string)
    requires RegisterUser(st, hash, username, password, password, now).Success?
    ensures var r := RegisterUser(st, hash, username, password, password, now).value;
      && Authenticate(r.users, hash, username, password)
      && !Authenticate(st.users, hash, username, password)
      && forall u, p :: u != username ==>
           (Authenticate(r.users, hash, u, p) <==> Authenticate(st.users, hash, u, p))
  {
  }

  /** A failed registration is reported for exactly the inputs it should be
      and the caller's state is left as it was (no new state is produced). */
  lemma RegisterDuplicateFails(st: State, hash: string -> string, username: string,
                               password: string, confirm: string, now: string)
    requires username in st.users
    ensures RegisterUser(st, hash, username, password, confirm, now) == Failure(DuplicateUser)
  {
  }

  /** Nothing in the checks rejects an empty user name. */
  lemma RegisterAcceptsEmptyName(st: State, hash: string -> string, now: string)
    requires "" !in st.users
    ensures RegisterUser(st, hash, "", "secret", "secret", now).Success?
  {
  }

  /** The built-in administrator of a fresh installation logs in with the
      default password. */
  lemma DefaultAdminAuthenticates(hash: string -> string)
    ensures Authenticate(Bootstrap(None, hash).users, hash, DefaultAdminName, DefaultAdminPassword)
  {
  }

  /** Pressing the toggle twice restores every user record. */
  lemma ToggleRoleTwice(st: State, actor: string, target: string, now: string, later: string)
    requires IsAdmin(st.users, actor)
    requires target in st.users && target != actor
    ensures IsAdmin(ToggleRole(st, actor, target, now).users, actor)
    ensures ToggleRole(ToggleRole(st, actor, target, now), actor, target, later).users == st.users
  {
    var r1 := ToggleRole(st, actor, target, now);
    var r2 := ToggleRole(r1, actor, target, later);
    assert r2.users[target] == st.users[target];
  }

  lemma UniqueAppend(slides: seq<Slide>, s: Slide)
    requires UniqueIds(slides) && s.presentationId !in IdSet(slides)
    ensures UniqueIds(slides + [s])
  {
    forall i | 0 <= i < |slides| ensures slides[i].presentationId != s.presentationId {
      IdSetMember(slides, i);
    }
  }

  /** The state the update branch edits keeps the registry invariant when
      the file's ids are unique, keeps every registered id, and is the
      session copy itself when the file cannot be read. */
  lemma UpdateBaseProps(st: State, disk: Option<Document>, actor: string, s: Slide)
    requires UniqueIds(st.slides)
    requires disk.Some? && disk.value.slides.Some? ==> UniqueIds(disk.value.slides.value)
    ensures UniqueIds(UpdateBase(st, disk, actor, s).slides)
    ensures IdSet(st.slides) <= IdSet(UpdateBase(st, disk, actor, s).slides)
    ensures disk.None? ==> UpdateBase(st, disk, actor, s) == st
  {
    if s.uploader != actor && actor in st.users && disk.Some? {
      MergePreservesUniqueIds(st, disk.value);
    }
  }

  /** Upload keeps ids unique, and afterwards the id is registered with the
      fetched title and slide count on its first record. Every id registered
      before stays registered; without a readable file the id is the only
      one added. */
  lemma UploadKeepsUniqueIds(st: State, disk: Option<Document>, actor: string, id: string,
                             description: string, fetched: Option<Details>, now: string)
    requires UniqueIds(st.slides)
    requires disk.Some? && disk.value.slides.Some? ==> UniqueIds(disk.value.slides.value)
    requires UploadOrUpdate(st, disk, actor, id, description, fetched, now).error.None?
    ensures var r := UploadOrUpdate(st, disk, actor, id, description, fetched, now).state;
      && UniqueIds(r.slides)
      && IdSet(st.slides) + {id} <= IdSet(r.slides)
      && (disk.None? ==> IdSet(r.slides) == IdSet(st.slides) + {id})
      && FindFirst(r.slides, id).Some?
      && r.slides[FindFirst(r.slides, id).value].title == fetched.value.title
      && r.slides[FindFirst(r.slides, id).value].slideCount == Some(fetched.value.slideCount)
  {
    var r := UploadOrUpdate(st, disk, actor, id, description, fetched, now).state;
    if id in IdSet(st.slides) {
      var i := FindFirst(st.slides, id).value;
      var base := UpdateBase(st, disk, actor, st.slides[i]);
      UpdateBaseProps(st, disk, actor, st.slides[i]);
      SameIdsSameIdSet(base.slides, r.slides);
      SameIdsSameUnique(base.slides, r.slides);
      assert IsFirstOfId(r.slides, i) by {
        forall j | 0 <= j < i ensures r.slides[j].presentationId != id {
          assert r.slides[j].presentationId == st.slides[j].presentationId;
        }
      }
      var k := FindFirst(r.slides, id).value;
      assert k == i;
    } else {
      UniqueAppend(st.slides, r.slides[|st.slides|]);
      assert r.slides == st.slides + [r.slides[|st.slides|]];
      IdSetConcat(st.slides, [r.slides[|st.slides|]]);
      assert IdSet([r.slides[|st.slides|]]) == {id};
      var k := FindFirst(r.slides, id).value;
      if k < |st.slides| {
        IdSetMember(st.slides, k);
      }
      assert k == |st.slides|;
    }
  }

  /** Updating an existing id succeeds exactly when the actor is its
      uploader or an administrator; whatever the file holds, the refresh
      inside the role lookup does not change that answer. */
  lemma UploadAuthorization(st: State, disk: Option<Document>, actor: string, id: string,
                            description: string, d: Details, now: string)
    requires id != "" && id in IdSet(st.slides)
    ensures var owner := st.slides[FindFirst(st.slides, id).value].uploader;
      UploadOrUpdate(st, disk, actor, id, description, Some(d), now).error.None? <==>
        (owner == actor || IsAdmin(st.users, actor))
  {
  }

  /** Deleting from a registry with unique ids removes exactly that id. */
  lemma {:induction false} RemoveFirstUnique(slides: seq<Slide>, id: string)
    requires UniqueIds(slides)
    ensures UniqueIds(RemoveFirst(slides, id))
    ensures IdSet(RemoveFirst(slides, id)) == IdSet(slides) - {id}
    decreases |slides|
  {
    if |slides| > 0 {
      var head, tail := slides[0], slides[1..];
      UniqueHead(slides);
      assert UniqueIds(tail) by {
        forall i, j | 0 <= i < j < |tail| ensures tail[i].presentationId != tail[j].presentationId {
          assert tail[i] == slides[i + 1] && tail[j] == slides[j + 1];
        }
      }
      IdSetConcat([head], tail);
      assert slides == [head] + tail;
      assert IdSet([head]) == {head.presentationId};
      if head.presentationId == id {
        assert RemoveFirst(slides, id) == tail;
      } else {
        var rest := RemoveFirst(tail, id);
        assert RemoveFirst(slides, id) == [head] + rest;
        RemoveFirstUnique(tail, id);
        IdSetConcat([head], rest);
        UniqueConcat([head], rest);
      }
    }
  }

  /** A delete button is offered on a record exactly when the record is
      registered and the actor is its uploader or an administrator. */
  lemma DeleteOfferedAuthorized(st: State, actor: string, shown: Slide)
    ensures (DeleteOffered(st, actor, shown, OwnDelete) || DeleteOffered(st, actor, shown, AdminRemove)) <==>
      shown in st.slides && (shown.uploader == actor || IsAdmin(st.users, actor))
  {
  }

  /** A record uploaded by alice, seen by bob: bob never gets the delete
      button of "My Uploads" on it, gets the admin panel's button only as an
      administrator, and that removal is logged as ADMIN_DELETE. */
  lemma DeleteExample(st: State, shown: Slide, now: string)
    requires shown in st.slides && shown.uploader == "alice"
    ensures !DeleteOffered(st, "bob", shown, OwnDelete)
    ensures !IsAdmin(st.users, "bob") ==> !DeleteOffered(st, "bob", shown, AdminRemove)
    ensures IsAdmin(st.users, "bob") ==>
      && DeleteOffered(st, "bob", shown, AdminRemove)
      && var r := DeletePresentation(st, "bob", shown, AdminRemove, now);
         r.activities[|st.activities|].action == AdminDelete
  {
  }
}

=== FILE: report.dfy ===
/** The aggregate statistics every report mode prints: the number of
    distinct uploaders, the number of presentations and the total slide
    count (a missing count reads as 0). */
module Report {
  import opened Wrappers
  import opened SharedState
  import opened Store
  import opened Registry

  function Uploaders(slides: seq<Slide>): set<string> {
    set s | s in slides :: s.uploader
  }

  function TotalSlides(slides: seq<Slide>): nat
    decreases |slides|
  {
    if |slides| == 0 then 0 else TotalSlides(slides[..|slides| - 1]) + CountOf(slides[|slides| - 1])
  }

  /** One pass over the records, collecting uploaders and summing counts. */
  method TeamStatistics(slides: seq<Slide>) returns (members: nat, presentations: nat, total: nat)
    ensures members == |Uploaders(slides)|
    ensures presentations == |slides|
    ensures total == TotalSlides(slides)
  {
    var seen: set<string> := {};
    total := 0;
    var i := 0;
    while i < |slides|
      invariant 0 <= i <= |slides|
      invariant seen == Uploaders(slides[..i])
      invariant total == TotalSlides(slides[..i])
    {
      assert slides[..i + 1] == slides[..i] + [slides[i]];
      StatisticsSnoc(slides[..i], slides[i]);
      seen := seen + {slides[i].uploader};
      total := total + CountOf(slides[i]);
      i := i + 1;
    }
    assert slides[..|slides|] == slides;
    members := |seen|;
    presentations := |slides|;
  }

  lemma StatisticsSnoc(init: seq<Slide>, s: Slide)
    ensures Uploaders(init + [s]) == Uploaders(init) + {s.uploader}
    ensures TotalSlides(init + [s]) == TotalSlides(init) + CountOf(s)
  {
    assert (init + [s])[..|init|] == init;
  }

  /** There are never more team members than presentations, and at least
      one when there is any presentation. */
  lemma {:induction false} UploadersBound(slides: seq<Slide>)
    ensures |Uploaders(slides)| <= |slides|
    ensures |slides| > 0 ==> |Uploaders(slides)| >= 1
    decreases |slides|
  {
    if |slides| > 0 {
      var init := slides[..|slides| - 1];
      UploadersBound(init);
      assert slides == init + [slides[|slides| - 1]];
      assert Uploaders(slides) == Uploaders(init) + {slides[|slides| - 1].uploader};
    }
  }

  lemma {:induction false} TotalSlidesConcat(a: seq<Slide>, b: seq<Slide>)
    ensures TotalSlides(a + b) == TotalSlides(a) + TotalSlides(b)
    decreases |b|
  {
    if |b| == 0 {
      assert a + b == a;
    } else {
      assert (a + b)[..|a + b| - 1] == a + b[..|b| - 1];
      TotalSlidesConcat(a, b[..|b| - 1]);
    }
  }

  /** An empty registry reports zero members, presentations and slides. */
  lemma EmptyReport()
    ensures |Uploaders([])| == 0 && TotalSlides([]) == 0
  {
    assert Uploaders([]) == {};
  }

  lemma TotalSlidesRemoveAt(p: seq<Slide>, x: Slide, q: seq<Slide>)
    ensures TotalSlides(p + q) + CountOf(x) == TotalSlides(p + [x] + q)
  {
    TotalSlidesConcat(p, q);
    TotalSlidesConcat(p + [x], q);
    StatisticsSnoc(p, x);
  }

  /** Deleting a record takes exactly its slides out of the total. */
  lemma DeleteLowersTotal(slides: seq<Slide>, id: string)
    requires FindFirst(slides, id).Some?
    ensures TotalSlides(RemoveFirst(slides, id)) + CountOf(slides[FindFirst(slides, id).value]) == TotalSlides(slides)
  {
    var i := FindFirst(slides, id).value;
    RemoveFirstSplit(slides, id);
    TotalSlidesRemoveAt(slides[..i], slides[i], slides[i + 1..]);
  }

  /** Uploading a new presentation adds its fetched count to the total and
      its uploader to the team. */
  lemma UploadNewRaisesTotal(st: State, disk: Option<Document>, actor: string, id: string,
                             description: string, d: Details, now: string)
    requires id != "" && id !in IdSet(st.slides)
    ensures var r := UploadOrUpdate(st, disk, actor, id, description, Some(d), now).state;
      && TotalSlides(r.slides) == TotalSlides(st.slides) + d.slideCount
      && Uploaders(r.slides) == Uploaders(st.slides) + {actor}
  {
    var r := UploadOrUpdate(st, disk, actor, id, description, Some(d), now).state;
    assert r.slides == st.slides + [r.slides[|st.slides|]];
    assert r.slides[..|r.slides| - 1] == st.slides;
  }
}

=== FILE: shared_state.dfy ===
/** The shared state every session holds a copy of: users keyed by name,
    the presentation registry (an ordered list keyed by presentation id)
    and the append-only activity log. */
module SharedState {
  import opened Wrappers

  /** A missing or unrecognised `role` key is read as `member` wherever the
      dashboard looks a role up. */
  datatype Role = Member | Admin

  datatype User = User(passwordHash: string, role: Role, lastLogin: Option<string>)

  /** One registered presentation. `slideCount` and `lastModified` are
      optional because the dashboard reads them with a default
      (0 and the empty string) when a stored record lacks them. */
  datatype Slide = Slide(
    presentationId: string,
    title: string,
    presentationLink: string,
    description: string,
    uploader: string,
    uploadDate: string,
    slideCount: Option<nat>,
    lastModified: Option<string>,
    status: string)

  datatype Action =
    | Login | Logout | Register | Upload | Update | Delete | ManualUpdate
    | AdminDelete | RoleChange | GoogleAuth | GoogleDisconnect | SlideUpdate

  datatype Activity = Activity(timestamp: string, user: string, action: Action, details: string)

  /** What the remote document service reports for a presentation. */
  datatype Details = Details(title: string, slideCount: nat)

  datatype State = State(users: map<string, User>, slides: seq<Slide>, activities: seq<Activity>)

  /** The slide count as the statistics and the update check read it. */
  function CountOf(s: Slide): nat {
    s.slideCount.GetOr(0)
  }

  /** The modification stamp as the merge compares it. */
  function StampOf(s: Slide): string {
    s.lastModified.GetOr("")
  }

  /** The role the dashboard attributes to `name`; unknown users are members. */
  function RoleOf(users: map<string, User>, name: string): (r: Role)
    ensures name !in users ==> r == Member
    ensures name in users ==> r == users[name].role
  {
    if name in users then users[name].role else Member
  }

  predicate IsAdmin(users: map<string, User>, name: string) {
    RoleOf(users, name) == Admin
  }

  function IdSet(slides: seq<Slide>): set<string> {
    set s | s in slides :: s.presentationId
  }

  /** The registry invariant: no presentation id occurs twice. */
  predicate UniqueIds(slides: seq<Slide>) {
    forall i, j :: 0 <= i < j < |slides| ==> slides[i].presentationId != slides[j].presentationId
  }

  /** `i` is the first position carrying the presentation id it carries:
      the record every id-based lookup of the dashboard lands on. */
  predicate IsFirstOfId(slides: seq<Slide>, i: int) {
    0 <= i < |slides| &&
    forall j :: 0 <= j < i ==> slides[j].presentationId != slides[i].presentationId
  }

  /** The position of the first record whose id is `id`, if any. */
  function FindFirst(slides: seq<Slide>, id: string): (r: Option<nat>)
    ensures r.None? <==> id !in IdSet(slides)
    ensures r.Some? ==> r.value < |slides| && slides[r.value].presentationId == id
                        && IsFirstOfId(slides, r.value)
    decreases |slides|
  {
    if |slides| == 0 then None
    else if slides[0].presentationId == id then Some(0)
    else
      match FindFirst(slides[1..], id)
      case None =>
        assert IdSet(slides) == {slides[0].presentationId} + IdSet(slides[1..]) by {
          assert slides == [slides[0]] + slides[1..];
        }
        None
      case Some(k) =>
        assert slides[1..][k] == slides[k + 1];
        Some(k + 1)
  }

  /** Past a first record with another id, the lookup is one place further
      on than in the rest of the list. */
  lemma FindFirstCons(slides: seq<Slide>, id: string)
    requires |slides| > 0 && slides[0].presentationId != id
    ensures FindFirst(slides, id).None? <==> FindFirst(slides[1..], id).None?
    ensures FindFirst(slides, id).Some? ==> FindFirst(slides, id).value == FindFirst(slides[1..], id).value + 1
  {
  }

  lemma IdSetMember(slides: seq<Slide>, i: int)
    requires 0 <= i < |slides|
    ensures slides[i].presentationId in IdSet(slides)
  {
    assert slides[i] in slides;
  }

  lemma IdSetConcat(a: seq<Slide>, b: seq<Slide>)
    ensures IdSet(a + b) == IdSet(a) + IdSet(b)
  {
    assert forall s :: s in a + b <==> s in a || s in b;
  }

  /** Lists with the same id at every position have the same id set. */
  lemma SameIdsSameIdSet(a: seq<Slide>, b: seq<Slide>)
    requires |a| == |b|
    requires forall i :: 0 <= i < |a| ==> a[i].presentationId == b[i].presentationId
    ensures IdSet(a) == IdSet(b)
  {
    forall id | id in IdSet(a) ensures id in IdSet(b) {
      var i := FindFirst(a, id).value;
      IdSetMember(b, i);
    }
    forall id | id in IdSet(b) ensures id in IdSet(a) {
      var i := FindFirst(b, id).value;
      IdSetMember(a, i);
    }
  }

  lemma UniqueConcat(a: seq<Slide>, b: seq<Slide>)
    requires UniqueIds(a) && UniqueIds(b) && IdSet(a) !! IdSet(b)
    ensures UniqueIds(a + b)
  {
    forall i, j | 0 <= i < j < |a + b|
      ensures (a + b)[i].presentationId != (a + b)[j].presentationId
    {
      if i < |a| && |a| <= j {
        IdSetMember(a, i);
        IdSetMember(b, j - |a|);
      }
    }
  }

  lemma UniqueHead(disk: seq<Slide>)
    requires |disk| > 0
    ensures UniqueIds(disk) ==> disk[0].presentationId !in IdSet(disk[1..])
  {
    if UniqueIds(disk) {
      forall s | s in disk[1..] ensures s.presentationId != disk[0].presentationId {
        var k :| 0 <= k < |disk[1..]| && disk[1..][k] == s;
        assert disk[k + 1] == s;
      }
    }
  }
}

=== FILE: store.dfy ===
/** Start-up bootstrap of the shared state from the backing JSON document. */
module Store {
  import opened Wrappers
  import opened SharedState

  /** A parsed backing document. Each top-level key may be absent; the
      document itself is `None` when the file is missing, unreadable or not
      valid JSON (every such failure is swallowed by the loader). */
  datatype Document = Document(
    users: Option<map<string, User>>,
    slides: Option<seq<Slide>>,
    activities: Option<seq<Activity>>)

  const DefaultAdminName: string := "admin"
  const DefaultAdminPassword: string := "admin123"

  /** The user table a fresh installation starts from: one administrator
      whose password is the hash of the built-in default password. */
  function DefaultUsers(hash: string -> string): (users: map<string, User>)
    ensures users.Keys == {DefaultAdminName}
    ensures users[DefaultAdminName].role == Admin
    ensures users[DefaultAdminName].passwordHash == hash(DefaultAdminPassword)
  {
    map[DefaultAdminName := User(hash(DefaultAdminPassword), Admin, None)]
  }

  /** `initialize_shared_state`: a readable document keeps every key it has
      and gets the default for each key it lacks; an unreadable one yields
      the default state. */
  function Bootstrap(loaded: Option<Document>, hash: string -> string): (st: State)
    ensures loaded.None? ==> st == State(DefaultUsers(hash), [], [])
    ensures loaded.Some? ==>
      && st.users == loaded.value.users.GetOr(DefaultUsers(hash))
      && st.slides == loaded.value.slides.GetOr([])
      && st.activities == loaded.value.activities.GetOr([])
  {
    match loaded
    case None => State(DefaultUsers(hash), [], [])
    case Some(doc) =>
      var users := if doc.users.Some? then doc.users.value else DefaultUsers(hash);
      var slides := if doc.slides.Some? then doc.slides.value else [];
      var activities := if doc.activities.Some? then doc.activities.value else [];
      State(users, slides, activities)
  }

  /** What saving a state writes: every key present. */
  function ToDocument(st: State): Document {
    Document(Some(st.users), Some(st.slides), Some(st.activities))
  }

  /** Saving and bootstrapping again gives back the same state. */
  lemma BootstrapSaved(st: State, hash: string -> string)
    ensures Bootstrap(Some(ToDocument(st)), hash) == st
  {
  }

  /** A freshly bootstrapped state with no stored slides satisfies the
      registry invariant, and the built-in administrator exists. */
  lemma BootstrapDefault(hash: string -> string)
    ensures UniqueIds(Bootstrap(None, hash).slides)
    ensures IsAdmin(Bootstrap(None, hash).users, DefaultAdminName)
  {
  }
}

=== FILE: strings.dfy ===
/** Text helpers: Python's lexicographic string order and decimal rendering
    of counts inside activity messages. */
module Strings {

  /** `a < b` under Python's `str` ordering: compare code point by code point;
      a proper prefix is smaller. (Dafny's own `<` on sequences means
      "proper prefix", which is a different relation.) */
  predicate StrLt(a: string, b: string)
    decreases |a|
  {
    if |a| == 0 then |b| > 0
    else if |b| == 0 then false
    else if a[0] != b[0] then a[0] < b[0]
    else StrLt(a[1..], b[1..])
  }

  lemma {:induction false} StrLtIrreflexive(a: string)
    ensures !StrLt(a, a)
    decreases |a|
  {
    if |a| > 0 {
      StrLtIrreflexive(a[1..]);
    }
  }

  lemma {:induction false} StrLtTransitive(a: string, b: string, c: string)
    requires StrLt(a, b) && StrLt(b, c)
    ensures StrLt(a, c)
    decreases |a|
  {
    if |a| > 0 && a[0] == b[0] && b[0] == c[0] {
      StrLtTransitive(a[1..], b[1..], c[1..]);
    }
  }

  /** Any two distinct strings are ordered one way or the other. */
  lemma {:induction false} StrLtTotal(a: string, b: string)
    ensures a == b || StrLt(a, b) || StrLt(b, a)
    decreases |a|
  {
    if |a| > 0 && |b| > 0 && a[0] == b[0] {
      StrLtTotal(a[1..], b[1..]);
      if a[1..] == b[1..] {
        assert a == [a[0]] + a[1..] && b == [b[0]] + b[1..];
      }
    }
  }

  lemma {:induction false} StrLtAsymmetric(a: string, b: string)
    requires StrLt(a, b)
    ensures !StrLt(b, a)
  {
    if StrLt(b, a) {
      StrLtTransitive(a, b, a);
      StrLtIrreflexive(a);
    }
  }

  /** Dafny's proper-prefix order is contained in the lexicographic one. */
  lemma {:induction false} ProperPrefixIsSmaller(a: string, b: string)
    requires a < b
    ensures StrLt(a, b)
    decreases |a|
  {
    if |a| > 0 {
      assert a[1..] < b[1..];
      ProperPrefixIsSmaller(a[1..], b[1..]);
    }
  }

  /** Two strings that agree up to position `k` and differ there are
      ordered by the characters at `k`. */
  lemma {:induction false} StrLtAtFirstDifference(a: string, b: string, k: nat)
    requires k < |a| && k < |b| && a[..k] == b[..k] && a[k] < b[k]
    ensures StrLt(a, b)
    decreases k
  {
    if k > 0 {
      assert a[0] == a[..k][0] == b[..k][0] == b[0];
      assert a[1..][..k - 1] == a[1..k] == a[..k][1..];
      assert b[1..][..k - 1] == b[1..k] == b[..k][1..];
      StrLtAtFirstDifference(a[1..], b[1..], k - 1);
    }
  }

  /** The single decimal digit for `d`. */
  function Digit(d: nat): (c: char)
    requires d < 10
    ensures '0' <= c <= '9'
    ensures c as int - '0' as int == d
  {
    "0123456789"[d]
  }

  /** The number a string of decimal digits denotes. */
  function DigitsValue(s: string): nat
    requires forall i :: 0 <= i < |s| ==> '0' <= s[i] <= '9'
    decreases |s|
  {
    if |s| == 0 then 0
    else DigitsValue(s[..|s| - 1]) * 10 + (s[|s| - 1] as int - '0' as int)
  }

  /** Decimal rendering of a count, as Python's `str(n)` writes it: the
      digits read back as `n`. */
  function NatToString(n: nat): (s: string)
    ensures |s| > 0
    ensures forall i :: 0 <= i < |s| ==> '0' <= s[i] <= '9'
    ensures |s| > 1 ==> s[0] != '0'
    ensures DigitsValue(s) == n
    decreases n
  {
    if n < 10 then [Digit(n)]
    else
      var s := NatToString(n / 10) + [Digit(n % 10)];
      assert s[..|s| - 1] == NatToString(n / 10);
      s
  }
}

=== FILE: updates.dfy ===
/** `check_for_updates`: after refreshing from disk, ask the remote service
    for every registered presentation and record slide-count changes.
    A failed fetch skips that record without stopping the scan. */
module Updates {
  import opened Wrappers
  import opened Strings
  import opened SharedState
  import opened Store
  import opened StateMerger

  /** The remote lookup by presentation id; `None` is any failure. */
  type Fetcher = string -> Option<Details>

  /** A record is touched only when its fetch succeeded and reported a count
      other than the stored one (a missing count reads as 0). */
  predicate Changes(s: Slide, fetched: Option<Details>) {
    fetched.Some? && fetched.value.slideCount != CountOf(s)
  }

  /** New count, fresh stamp and the title the service reports. */
  function Refreshed(s: Slide, d: Details, now: string): Slide {
    s.(slideCount := Some(d.slideCount), lastModified := Some(now), title := d.title)
  }

  /** The SLIDE_UPDATE record, attributed to the record's uploader. The
      message names the new title, because the record is updated before the
      message is built. */
  function UpdateEntry(s: Slide, d: Details, now: string): Activity {
    Activity(now, s.uploader, SlideUpdate,
             "Updated '" + d.title + "' from " + NatToString(CountOf(s)) +
             " to " + NatToString(d.slideCount) + " slides")
  }

  /** Reference: what the scan leaves at one position. */
  function Expected(s: Slide, fetch: Fetcher, now: string): Slide {
    var f := fetch(s.presentationId);
    if Changes(s, f) then Refreshed(s, f.value, now) else s
  }

  /** Reference: the activity records a scan of `slides` appends, in order. */
  function UpdateLog(slides: seq<Slide>, fetch: Fetcher, now: string): (log: seq<Activity>)
    ensures forall a :: a in log ==> a.action == SlideUpdate && a.timestamp == now
    decreases |slides|
  {
    if |slides| == 0 then []
    else
      var last := slides[|slides| - 1];
      var f := fetch(last.presentationId);
      UpdateLog(slides[..|slides| - 1], fetch, now) +
        (if Changes(last, f) then [UpdateEntry(last, f.value, now)] else [])
  }

  lemma UpdateLogSnoc(slides: seq<Slide>, k: int, fetch: Fetcher, now: string)
    requires 0 <= k < |slides|
    ensures UpdateLog(slides[..k + 1], fetch, now) ==
      UpdateLog(slides[..k], fetch, now) +
        (if Changes(slides[k], fetch(slides[k].presentationId))
         then [UpdateEntry(slides[k], fetch(slides[k].presentationId).value, now)] else [])
  {
    assert slides[..k + 1][..k] == slides[..k];
  }

  /** How many records the service failed to report. */
  function FailedCount(slides: seq<Slide>, fetch: Fetcher): nat
    decreases |slides|
  {
    if |slides| == 0 then 0
    else FailedCount(slides[..|slides| - 1], fetch) + (if fetch(slides[|slides| - 1].presentationId).None? then 1 else 0)
  }

  /** How many records the scan changes. */
  function ChangedCount(slides: seq<Slide>, fetch: Fetcher): nat
    decreases |slides|
  {
    if |slides| == 0 then 0
    else
      var last := slides[|slides| - 1];
      ChangedCount(slides[..|slides| - 1], fetch) + (if Changes(last, fetch(last.presentationId)) then 1 else 0)
  }

  /** The scan logs exactly one record per changed record, and a record
      whose fetch failed is never changed. */
  lemma {:induction false} UpdateLogLength(slides: seq<Slide>, fetch: Fetcher, now: string)
    ensures |UpdateLog(slides, fetch, now)| == ChangedCount(slides, fetch)
    ensures ChangedCount(slides, fetch) + FailedCount(slides, fetch) <= |slides|
    decreases |slides|
  {
    if |slides| > 0 {
      UpdateLogLength(slides[..|slides| - 1], fetch, now);
    }
  }

  /** Over N records of which K fail, at most N - K log records. */
  lemma {:induction false} UpdateLogBound(slides: seq<Slide>, fetch: Fetcher, now: string)
    ensures |UpdateLog(slides, fetch, now)| + FailedCount(slides, fetch) <= |slides|
    decreases |slides|
  {
    if |slides| > 0 {
      UpdateLogBound(slides[..|slides| - 1], fetch, now);
    }
  }

  /** Only records whose fetch succeeded are updated, and a scan logs nothing
      when every fetch fails. */
  lemma {:induction false} AllFailedNoUpdates(slides: seq<Slide>, fetch: Fetcher, now: string)
    requires forall i :: 0 <= i < |slides| ==> fetch(slides[i].presentationId).None?
    ensures UpdateLog(slides, fetch, now) == []
    ensures FailedCount(slides, fetch) == |slides|
    decreases |slides|
  {
    if |slides| > 0 {
      AllFailedNoUpdates(slides[..|slides| - 1], fetch, now);
    }
  }

  /** The loop of the scan over the refreshed registry: every record is
      brought to its expected value, one SLIDE_UPDATE record per changed
      record is produced in registry order, and the answer is whether
      anything changed. A second scan with the same answers from the
      service would find nothing to change. */
  method ScanSlides(slides: seq<Slide>, fetch: Fetcher, now: string)
    returns (updated: seq<Slide>, log: seq<Activity>, updatesFound: bool)
    ensures |updated| == |slides|
    ensures forall i :: 0 <= i < |slides| ==> updated[i] == Expected(slides[i], fetch, now)
    ensures log == UpdateLog(slides, fetch, now)
    ensures updatesFound <==>
      exists i :: 0 <= i < |slides| && Changes(slides[i], fetch(slides[i].presentationId))
    ensures forall i :: 0 <= i < |updated| ==> !Changes(updated[i], fetch(updated[i].presentationId))
    ensures UniqueIds(slides) ==> UniqueIds(updated)
  {
    updated := slides;
    log := [];
    updatesFound := false;
    var idx := 0;
    while idx < |updated|
      invariant 0 <= idx <= |slides| && |updated| == |slides|
      invariant forall j :: 0 <= j < idx ==> updated[j] == Expected(slides[j], fetch, now)
      invariant forall j :: idx <= j < |updated| ==> updated[j] == slides[j]
      invariant log == UpdateLog(slides[..idx], fetch, now)
      invariant updatesFound <==>
        exists j :: 0 <= j < idx && Changes(slides[j], fetch(slides[j].presentationId))
    {
      var slide := updated[idx];
      var details := fetch(slide.presentationId);
      if details.Some? {
        var current := CountOf(slide);
        if details.value.slideCount != current {
          updated := updated[idx := Refreshed(slide, details.value, now)];
          updatesFound := true;
          log := log + [UpdateEntry(slide, details.value, now)];
        }
      }
      UpdateLogSnoc(slides, idx, fetch, now);
      idx := idx + 1;
    }
    assert slides[..|slides|] == slides;
    forall i | 0 <= i < |updated|
      ensures !Changes(updated[i], fetch(updated[i].presentationId))
      ensures updated[i].presentationId == slides[i].presentationId
    {
      ExpectedIsStable(slides[i], fetch, now);
    }
  }

  /** `check_for_updates`. Without a remote service nothing happens and the
      answer is false; otherwise the state is first merged with the disk
      document and then scanned, and the activity log grows by the scan's
      records only. */
  method CheckForUpdates(st: State, disk: Option<Document>, service: Option<Fetcher>, now: string)
    returns (r: State, updatesFound: bool)
    ensures service.None? ==> r == st && !updatesFound
    ensures service.Some? ==>
      var m := Merge(st, disk);
      var fetch := service.value;
      && r.users == m.users
      && |r.slides| == |m.slides|
      && (forall i :: 0 <= i < |m.slides| ==> r.slides[i] == Expected(m.slides[i], fetch, now))
      && r.activities == m.activities + UpdateLog(m.slides, fetch, now)
      && (updatesFound <==>
            exists i :: 0 <= i < |m.slides| && Changes(m.slides[i], fetch(m.slides[i].presentationId)))
  {
    if service.None? {
      return st, false;
    }
    var m := Merge(st, disk);
    var updated, log;
    updated, log, updatesFound := ScanSlides(m.slides, service.value, now);
    r := State(m.users, updated, m.activities + log);
  }

  /** A record brought to its expected value needs no further update for
      the same answer from the service. */
  lemma ExpectedIsStable(s: Slide, fetch: Fetcher, now: string)
    ensures Expected(s, fetch, now).presentationId == s.presentationId
    ensures !Changes(Expected(s, fetch, now), fetch(s.presentationId))
  {
  }

  /** The scan changes no id and no uploader, so it keeps the registry
      invariant. */
  lemma ExpectedKeepsIdentity(s: Slide, fetch: Fetcher, now: string)
    ensures Expected(s, fetch, now).presentationId == s.presentationId
    ensures Expected(s, fetch, now).uploader == s.uploader
    ensures Expected(s, fetch, now).uploadDate == s.uploadDate
  {
  }
}

=== FILE: wrappers.dfy ===
/** Failure-compatible wrappers used throughout the model: an optional value
    (a JSON key that may be absent, a fetch that may fail) and a result that
    is either a new value or a user-facing error. */
module Wrappers {

  datatype Option<+T> = None | Some(value: T) {

    /** The wrapped value, or `default` when absent (Python's `dict.get(k, default)`). */
    function GetOr(default: T): T {
      match this
      case Some(v) => v
      case None => default
    }
  }

  datatype Result<+R, +E> = Success(value: R) | Failure(error: E)
}
